=== FILE: README.md ===
# datr photo sorter — Dafny model of the date and placement core

`datr` copies or moves image files into folders named after the date each
picture was taken. This project models the four parts of `src/main.rs` that
make decisions, and proves properties about them:

- **`get_exif`** (`Exif` module). It reads the `DateTime`, `DateTimeOriginal`
  and `DateTimeDigitized` tags of the primary image and keeps the earliest
  date that parses.
- **the date fallback of `process_file`** (`Placement.ResolveDate`). The order
  is the EXIF date, then `created()` from a first `metadata()` call, then
  `modified()` from a second `metadata()` call.
- **`change_file_name`** (`Collision` module). It searches for `stem (k).ext`
  with k = 1, 2, … until the path is free.
- **`process_file` and `sort`** (`Placement.ProcessFile`, `Batch`). These
  compute where a file goes, change the file system, and count successes.

The file system is a finite set of existing paths. It is threaded through
the batch:

- `create_dir_all` adds the date directory and every prefix of it.
- A copy adds the destination.
- A move adds the destination and removes the source.

Every I/O call is an input of the model: opening the file, reading the EXIF
container, each of the two `metadata()` calls, `create_dir_all`, and `rename`
or `copy`. So is the
walk itself, given as a sequence of entries and walk errors. Two foreign
functions are also parameters: the EXIF ASCII date parser and the
date-to-path rendering of the format string.

Rust's path operations are modelled in `Paths` over component lists.
`file_name`, `file_stem`, `extension`, `set_file_name`, `set_extension` and
`join` follow the standard library's rules, including `rsplit_file_at_dot`.
An OS string is a sequence of units. Each unit is either a character or a
raw byte of at least 0x80 that is not part of valid UTF-8, so `to_str`
succeeds exactly when every unit is a character.

Dates are `(year, month, day, hour, minute, second)` tuples compared
lexicographically. For valid calendar values this is the order of
`DateTime<Utc>`.

## Model

| member | source | states |
|---|---|---|
| Exif.GetExif | src/main.rs:144-187 | A failed container read yields no date, not an error. Otherwise there is a date exactly when one of the three tags yields a candidate. The date is then one of the candidates and no later than any of them. |
| Exif.CollectDates | src/main.rs:155-181 | The candidate list holds exactly the dates that some tag in the list contributes, and has at most one per tag. |
| Exif.MinDate | src/main.rs:183-186 | `min` over the candidates: it returns a value exactly when the list is non-empty, and that value is a member of the list and is `Le` every member. |
| Exif.SkippedFieldIgnored | src/main.rs:159-180 | A date field that is non-ASCII, holds no string, or whose first string does not parse is skipped silently: removing it leaves the result unchanged. |
| Exif.OnlyPrimaryDateFieldsMatter | src/main.rs:157-160 | Only the three date tags in the primary IFD are read. Two containers that agree on them give the same date. |
| Exif.EarlierTagWins | src/main.rs:183-186 | If `DateTime` is 09:00 and `DateTimeOriginal` is 10:00 on the same day, the result is 09:00. |
| DateTimes.LeTotalOrder | src/main.rs:183 | The date order is reflexive, total, antisymmetric and transitive, so the minimum is well defined. |
| Placement.ResolveDate | src/main.rs:88-94 | The result is an error exactly when there is no EXIF date and either the first `metadata()` call fails, or `created()` fails and then the second `metadata()` call or its `modified()` fails. A failing `metadata()` call gives that call's error; otherwise the error is the one from `modified()`. A resolved date is the EXIF date, the first call's `created()`, or the second call's `modified()`. |
| Placement.FallbackOrder | src/main.rs:88-94 | When an EXIF date exists, neither `metadata()` call is consulted, even if it would fail. When `created()` succeeds, the second `metadata()` call makes no difference. The `modified()` of the first call is never consulted. |
| Placement.ProcessFile | src/main.rs:86-121 | A placed file lands in `output/fmt(date)`, at a path that did not exist before. The collision-failure error never occurs. A file succeeds only if opening, the name's UTF-8 conversion, `create_dir_all` and the copy or rename all succeed; a failure of any of them fails the file. No existing path other than the source is ever removed: a copy keeps every existing path, and a move removes only the source. A failure before the transfer changes nothing. |
| Placement.DestinationWithoutCollision | src/main.rs:96-104 | When `output/fmt(date)/name` is free, the file goes exactly there and keeps its original name. |
| Placement.NonTextNameFails | src/main.rs:99-102 | A file name that is not UTF-8 fails the file with a name error, and nothing is written. |
| Placement.CollisionTakesSmallestFreeCounter | src/main.rs:106-111 | When the destination is taken, the file goes to `stem (k).ext` in the same directory. Here k is the smallest counter ≥ 1 that is free. |
| Collision.ChangeFileName | src/main.rs:123-142 | The rename loop, with each attempt formed as `stem (k).ext`, terminates. It returns `None` exactly when there is no file name or the stem is not UTF-8. Otherwise it returns a free path in the same directory: the input itself if free, else `stem (k).ext` for the smallest free k ≥ 1. |
| Collision.Resolve | src/main.rs:123-142 | This is a loop-free definition of the same result. It fails only on unresolvable paths, and its result is free, in the same directory, and has the smallest counter. |
| Collision.FirstFree | src/main.rs:127-137 | The first counter whose candidate is free: every smaller counter is taken. |
| Collision.CandidatesBound | src/main.rs:130-137 | If counters 1 .. k-1 are all taken, there are at least k-1 existing paths. So the counter never passes \|existing\| + 1, which bounds the loop. |
| Collision.CandidateInjective | src/main.rs:131-135 | Different counters give different paths. |
| Collision.Candidate | src/main.rs:131-135 | Each attempt keeps the directory of the original path and has a file name. |
| Collision.RenameAsWritten | src/main.rs:131-135 | The loop body as written, `set_file_name` then `set_extension`, keeps the directory of the original path. |
| Collision.AsWrittenAgrees | src/main.rs:131-135 | When the stem has no `.` after its first character, or there is no extension, the loop body as written gives exactly `stem (k).ext`. |
| DottedStem.DottedStemLosesCounter | src/main.rs:130-137 | For `d/a.b.jpg`, every attempt of the loop as written is `d/a.jpg`. If that path exists, every attempt is taken and the loop never ends. |
| DottedStem.DottedStemResolved | src/main.rs:130-137 | The corrected resolver places `d/a.b.jpg` at `d/a.b (1).jpg`, whether `d/a.jpg` exists or not. |
| Decimal.ParseDecRoundTrip | src/main.rs:131 | Reading back the decimal text of the counter gives the counter. |
| Decimal.DecInjective | src/main.rs:131 | Distinct counters are written differently. |
| Paths.StemExtensionPartition | src/main.rs:128-133 | A path has a stem exactly when it has a file name. The file name is `stem.ext` when there is an extension, and the extension holds no dot. Without an extension the stem is the whole name. |
| Paths.LastDot | src/main.rs:128 | The split point used by `file_stem`/`extension` is the last dot of the name. When there is none, the name has no dot. |
| Paths.LastDotAppendUndotted | src/main.rs:131-134 | Appending text without dots (such as ` (k)`) does not move the last dot. This is why `set_extension` re-splits a dotted stem. |
| Paths.ToStrFromText | src/main.rs:99-100 | `to_str` succeeds exactly on names that came from text, and returns that text. |
| Paths.StemOfText | src/main.rs:128 | The stem of a UTF-8 file name is UTF-8. |
| Paths.SetFileName | src/main.rs:132 | The new name becomes the file name, and the directory is kept. |
| Paths.SetExtension | src/main.rs:134 | A path without a stem is unchanged. Otherwise the new file name is the old stem, followed by `.ext` when `ext` is non-empty, and the directory is kept. |
| Paths.Join | src/main.rs:96 | `output.join(rel)` is absolute when either side is, and the file name of `rel`, when it has one, is the file name of the result. |
| Paths.JoinComponents | src/main.rs:96 | The result ends with the components of `rel`. A relative `rel` is appended after all of `base`; an absolute one stands alone. |
| Paths.JoinName | src/main.rs:104 | `dir.join(name)` has `name` as its file name and `dir` as its directory. |
| Paths.FileNotAmongItsDirs | src/main.rs:113 | No directory that `create_dir_all` creates for a file's directory is the file's own path. |
| Batch.Visited | src/main.rs:72-76 | Walk errors are dropped. Every processed entry comes from the walk, is a regular file, and sits at depth ≤ 1 unless recursive. Every such entry of the walk is processed. |
| Batch.VisitedOne | src/main.rs:72-76 | A one-item walk yields its entry exactly when the item is a regular file within reach, and nothing otherwise. |
| Batch.VisitedAppend | src/main.rs:72-76 | A walk split in two yields the entries of the first part followed by those of the second. With `VisitedOne` this fixes the order and multiplicity of the processed entries: they are the walk's items, filtered, in walk order. |
| Batch.SortFrom | src/main.rs:69-84 | Every processed entry gets an outcome, even after earlier failures, and the first is processed against the initial file system. The count is the number of `Ok` outcomes. When copying, the file system only grows and no placed file existed before. |
| Batch.EveryEntryProcessed | src/main.rs:75-81 | For every index i, outcome i is what `process_file` gives for the i-th processed entry, against the file system recorded for it, whatever the earlier outcomes were. |
| Batch.FileSystemThreading | src/main.rs:75-81 | The first entry sees the initial file system (`SortFrom`), and each later entry sees exactly the file system that `process_file` left after the entry before it. |
| Batch.FinalFileSystem | src/main.rs:69-84 | The batch ends with the file system `process_file` left after the last processed entry, or with the initial one when nothing was processed. |
| Batch.RunKeepsAndAdds | src/main.rs:69-84 | For any per-entry step that keeps existing paths and places files on new paths, the whole loop only grows the file system, and every placed file is new to the initial one and present at the end. |
| Batch.RunPlacesDistinctFiles | src/main.rs:69-84 | For such a step, no two files of one loop land on the same path. |
| Batch.Sort | src/main.rs:69-84 | The counter loop returns the batch's success count, which is at most the number of processed entries. |
| Batch.CopyBatchPlacesDistinctFiles | src/main.rs:106-118 | When copying, no two files of a batch land on the same path. |
| Batch.NoPlacementOverwrites | src/main.rs:106-111 | Every placed file goes to a path absent from the file system it was processed against, which by `FileSystemThreading` is the one the previous entries left. |

## Left out

- CLI parsing with clap (src/main.rs:14-44, 43-49): argument glue. The summary line is not modelled.
- The cleanup pass (src/main.rs:51-66): the flag is marked not implemented, and the pass only walks directories and removes them.
- `println!` logging (src/main.rs:79, 125, 139): side effects only. The `?` on `result.file_name()` at line 139 can never fail, because every result has a file name.
- Real I/O: opening, `metadata()`, `create_dir_all`, `rename` and `copy` are per-entry inputs. A failed `create_dir_all` is taken to create nothing. A failed copy or rename is taken to write nothing.
- The directory walk is a given sequence. Its order, its laziness, and changes made to the tree while it runs are not modelled.
- The EXIF container parser and `exif::DateTime::from_ascii` are an abstract parser. The parser is assumed to produce valid calendar fields, so the panics of `NaiveDate::from_ymd`/`and_hms` on out-of-range fields (src/main.rs:164-171) are not modelled.
- chrono's strftime formatting is an abstract `render` function from a date to a path. The conversion from `SystemTime` to `DateTime<Utc>` is not modelled, and neither is sub-second precision. A format string with fractional-second specifiers (`%f`, `%.3f`) renders digits that the whole-second date of the model does not carry, so two files created in the same second could be sent to different directories by the code but not by the model. No proven property depends on what `render` returns. The format string is also assumed valid: with an invalid one (such as `%Q` or a trailing `%`), chrono's formatter reports an error and `.to_string()` at src/main.rs:96 panics on the first file whose date resolves. That ends the whole run: later entries are never processed and the summary line is never printed. The model's `render` is total, so `Batch.SortFrom` and `Batch.EveryEntryProcessed` give every entry an outcome.
- Batch.Sort: the counter is an unbounded `nat`. The source's `i64` counter cannot realistically overflow.
- Collision.ChangeFileName: the counter is an unbounded `nat`. The source's `i32` counter would overflow only after 2^31 taken names.
- Paths: the root is folded into an `absolute` flag and `.` components are dropped. Rust drops `.` too, except a leading one, which it keeps: `./a` and `a` are different `Path` values in Rust but the same value here. Prefixes such as Windows drive letters are not modelled.
- Paths: names are taken to be canonical: a `Raw` unit is a byte of at least 0x80, and no run of `Raw` units would by itself form valid UTF-8 (such a run is written as the characters it encodes).
- Paths.JoinName: a name is taken to be a single path component. An empty name, `..`, or a name containing `/` would make Rust's `join` and `set_file_name` behave differently, and those cases are not modelled. A `walkdir` entry's file name is never one of them.
- Placement.ProcessFile: `exists()` is modelled as membership of the exact component list in the set of existing paths. Two different paths are taken to be two different files. `..` segments, symlinks, or a case-insensitive file system could make two paths name one file; this is not modelled. The no-overwrite contracts of `Placement.ProcessFile`, `Batch.CopyBatchPlacesDistinctFiles` and `Batch.NoPlacementOverwrites` rest on that assumption.
- Placement.ProcessFile: on a collision it uses the corrected attempt `stem (k).ext` (`Collision.Candidate`). The source's loop agrees with it only when the stem has no `.` after its first character, or the name has no extension (`Collision.AsWrittenAgrees`). Otherwise the source writes `stem-before-its-last-dot.ext`, or loops forever (see Findings).
- Placement.CollisionTakesSmallestFreeCounter: states the corrected attempt `stem (k).ext`. The source's loop agrees only under the condition of `Collision.AsWrittenAgrees` (see Findings).
- Collision.ChangeFileName: models the corrected attempt `stem (k).ext`, and its termination is that of the corrected loop. The source's loop agrees only under the condition of `Collision.AsWrittenAgrees`. Otherwise the source can return a different path, or never terminate (see Findings).
- Collision.Resolve: defines the corrected result. The source agrees only under the condition of `Collision.AsWrittenAgrees` (see Findings).

Three behaviours of the code worth knowing:

- The resolver fails only when there is no file name or the stem is not UTF-8. A missing extension does not make it fail.
- Inside `process_file` that failure branch is unreachable (`Placement.ProcessFile`). The joined path always has the entry's name as its file name, and the stem of a UTF-8 name is UTF-8.
- A file named `foo.` has an empty extension. `set_extension` writes no dot for an empty extension, so its renamed form is `foo (1)`, and `Collision.Candidate` does the same.

## Findings

| source | as written | input that shows it | evidently intended | confidence | as-written member | corrected member |
|---|---|---|---|---|---|---|
| src/main.rs:131-135 | `set_file_name("a.b (k)")` followed by `set_extension("jpg")` re-splits the new name at its last dot. The counter is cut off, and every attempt becomes `a.jpg`. | `d/a.b.jpg` exists. If `d/a.jpg` is free, the file is placed at `d/a.jpg`. If `d/a.jpg` also exists, the loop never ends (a debug build panics instead, once the `i32` counter overflows). | `d/a.b (1).jpg`, the name `stem (k).ext` for the first free k | high; not executed | DottedStem.DottedStemLosesCounter (loop body: Collision.RenameAsWritten) | Collision.ChangeFileName (attempts: Collision.Candidate; DottedStem.DottedStemResolved) |

`Collision.AsWrittenAgrees` proves that the corrected attempt equals the
code's attempt whenever the stem has no dot after its first character, or the
name has no extension. On those inputs the model and the code agree.

=== FILE: batch.dfy ===
/** `sort`: walk the input, process every regular file within reach, and
    count the successes. */
module Batch {
  import opened Wrappers
  import opened Paths
  import opened Placement

  /** One item of the directory walk: an entry, or an error the walker
      reported (dropped whatever its depth). */
  datatype WalkItem = Found(entry: Entry) | WalkFailed

  /** The items `sort` hands to `process_file`: entries the walk yielded
      (errors are dropped), no deeper than one level unless recursive, and
      regular files only. */
  predicate Processed(item: WalkItem, recursive: bool) {
    && item.Found?
    && (recursive || item.entry.depth <= 1)
    && item.entry.fileType == RegularFile
  }

  /** The processed entries, in walk order. */
  function Visited(items: seq<WalkItem>, recursive: bool): (es: seq<Entry>)
    ensures |es| <= |items|
    ensures forall e :: e in es ==> Found(e) in items
    ensures forall e :: e in es ==> e.fileType == RegularFile && (recursive || e.depth <= 1)
    ensures forall i :: 0 <= i < |items| && Processed(items[i], recursive) ==> items[i].entry in es
  {
    if |items| == 0 then []
    else
      var rest := Visited(items[1..], recursive);
      assert forall i :: 1 <= i < |items| ==> items[i] == items[1..][i - 1];
      assert forall w :: w in items[1..] ==> w in items;
      if Processed(items[0], recursive) then [items[0].entry] + rest else rest
  }

  /** `Visited` is the order- and multiplicity-preserving filter of the
      walk: one item yields its entry exactly when it is processed (here),
      and a walk split in two yields the entries of the first part followed
      by those of the second (`VisitedAppend`). */
  lemma VisitedOne(w: WalkItem, recursive: bool)
    ensures Visited([w], recursive) == if Processed(w, recursive) then [w.entry] else []
  {
    assert [w][1..] == [];
  }

  /** How `Visited` unfolds on a non-empty walk. */
  lemma VisitedStep(items: seq<WalkItem>, recursive: bool)
    requires |items| > 0
    ensures Visited(items, recursive)
         == (if Processed(items[0], recursive) then [items[0].entry] else []) + Visited(items[1..], recursive)
  {
  }

  lemma {:induction false} VisitedAppend(a: seq<WalkItem>, b: seq<WalkItem>, recursive: bool)
    ensures Visited(a + b, recursive) == Visited(a, recursive) + Visited(b, recursive)
    decreases |a|
  {
    if |a| == 0 {
      assert a + b == b;
    } else {
      var head := if Processed(a[0], recursive) then [a[0].entry] else [];
      calc {
        Visited(a + b, recursive);
        { VisitedStep(a + b, recursive);
          assert (a + b)[1..] == a[1..] + b && (a + b)[0] == a[0]; }
        head + Visited(a[1..] + b, recursive);
        { VisitedAppend(a[1..], b, recursive); }
        head + (Visited(a[1..], recursive) + Visited(b, recursive));
        (head + Visited(a[1..], recursive)) + Visited(b, recursive);
        { VisitedStep(a, recursive); }
        Visited(a, recursive) + Visited(b, recursive);
      }
    }
  }

  function CountOk(os: seq<Result<Path, Error>>): (n: nat)
    ensures n <= |os|
  {
    if |os| == 0 then 0 else (if os[0].Ok? then 1 else 0) + CountOk(os[1..])
  }

  /** The batch result: the success count, the outcome of every processed
      entry, the file system each of them was processed against, and the
      file system at the end. */
  datatype Report = Report(count: nat, outcomes: seq<Result<Path, Error>>, before: seq<set<Path>>, fs: set<Path>)

  /** What the loop does with one processed entry against the existing
      paths: `process_file` in `sort`, any step in the lemmas about the loop. */
  type StepFn = (Entry, set<Path>) -> Step

  /** The loop of `sort` over `items` with the per-entry step `step`,
      starting from the existing paths `fs`.  A failed entry is counted as
      such and the loop goes on. */
  function Run(items: seq<WalkItem>, recursive: bool, step: StepFn, fs: set<Path>): (r: Report)
    ensures |r.outcomes| == |r.before| == |Visited(items, recursive)|
    ensures r.count == CountOk(r.outcomes)
    ensures |r.before| > 0 ==> r.before[0] == fs
  {
    if |items| == 0 then Report(0, [], [], fs)
    else if !Processed(items[0], recursive) then Run(items[1..], recursive, step, fs)
    else
      var s := step(items[0].entry, fs);
      var rest := Run(items[1..], recursive, step, s.fs);
      var r := Report((if s.outcome.Ok? then 1 else 0) + rest.count,
                      [s.outcome] + rest.outcomes, [fs] + rest.before, rest.fs);
      assert r.outcomes[1..] == rest.outcomes;
      r
  }

  /** How `Run` and `Visited` unfold on a non-empty walk. */
  lemma RunStep(items: seq<WalkItem>, recursive: bool, step: StepFn, fs: set<Path>)
    requires |items| > 0
    ensures !Processed(items[0], recursive) ==>
      && Run(items, recursive, step, fs) == Run(items[1..], recursive, step, fs)
      && Visited(items, recursive) == Visited(items[1..], recursive)
    ensures Processed(items[0], recursive) ==>
      var s := step(items[0].entry, fs);
      var rest := Run(items[1..], recursive, step, s.fs);
      var r := Run(items, recursive, step, fs);
      && r.outcomes == [s.outcome] + rest.outcomes
      && r.before == [fs] + rest.before
      && r.fs == rest.fs
      && Visited(items, recursive) == [items[0].entry] + Visited(items[1..], recursive)
  {
  }

  /** Each processed entry's outcome is the step's outcome for that entry
      against the file system it was processed against. */
  lemma {:induction false} RunOutcomes(items: seq<WalkItem>, recursive: bool, step: StepFn, fs: set<Path>)
    ensures
      var r := Run(items, recursive, step, fs);
      forall i :: 0 <= i < |r.outcomes| ==>
        r.outcomes[i] == step(Visited(items, recursive)[i], r.before[i]).outcome
  {
    if |items| > 0 {
      RunStep(items, recursive, step, fs);
      if !Processed(items[0], recursive) {
        RunOutcomes(items[1..], recursive, step, fs);
      } else {
        var s := step(items[0].entry, fs);
        RunOutcomes(items[1..], recursive, step, s.fs);
        var rest := Run(items[1..], recursive, step, s.fs);
        var r := Run(items, recursive, step, fs);
        var vs, ws := Visited(items, recursive), Visited(items[1..], recursive);
        forall i | 0 < i < |r.outcomes|
          ensures r.outcomes[i] == step(vs[i], r.before[i]).outcome
        {
          assert r.outcomes[i] == rest.outcomes[i - 1];
          assert r.before[i] == rest.before[i - 1];
          assert vs[i] == ws[i - 1];
        }
      }
    }
  }

  /** `RunThreading` when the first item is processed and i is 0. */
  lemma RunThreadingFirst(items: seq<WalkItem>, recursive: bool, step: StepFn, fs: set<Path>)
    requires |items| > 0 && Processed(items[0], recursive)
    requires 1 < |Run(items, recursive, step, fs).before|
    ensures
      var r := Run(items, recursive, step, fs);
      r.before[1] == step(Visited(items, recursive)[0], r.before[0]).fs
  {
    RunStep(items, recursive, step, fs);
  }

  /** `RunThreading` when the first item is processed and i is past it,
      given the fact for the rest of the walk. */
  lemma RunThreadingLater(items: seq<WalkItem>, recursive: bool, step: StepFn, fs: set<Path>, i: nat)
    requires |items| > 0 && Processed(items[0], recursive) && 0 < i
    requires i + 1 < |Run(items, recursive, step, fs).before|
    requires
      var s := step(items[0].entry, fs);
      var rest := Run(items[1..], recursive, step, s.fs);
      i < |rest.before| && rest.before[i] == step(Visited(items[1..], recursive)[i - 1], rest.before[i - 1]).fs
    ensures
      var r := Run(items, recursive, step, fs);
      r.before[i + 1] == step(Visited(items, recursive)[i], r.before[i]).fs
  {
    RunStep(items, recursive, step, fs);
  }

  /** The file system the entry after the i-th is processed against is the
      one the step for the i-th entry left. */
  lemma {:induction false} RunThreading(items: seq<WalkItem>, recursive: bool, step: StepFn, fs: set<Path>, i: nat)
    requires i + 1 < |Run(items, recursive, step, fs).before|
    ensures
      var r := Run(items, recursive, step, fs);
      r.before[i + 1] == step(Visited(items, recursive)[i], r.before[i]).fs
  {
    RunStep(items, recursive, step, fs);
    if !Processed(items[0], recursive) {
      RunThreading(items[1..], recursive, step, fs, i);
    } else if i == 0 {
      RunThreadingFirst(items, recursive, step, fs);
    } else {
      var s := step(items[0].entry, fs);
      RunThreading(items[1..], recursive, step, s.fs, i - 1);
      RunThreadingLater(items, recursive, step, fs, i);
    }
  }

  /** When nothing is processed, the loop leaves the file system alone. */
  lemma {:induction false} RunNothingProcessed(items: seq<WalkItem>, recursive: bool, step: StepFn, fs: set<Path>)
    ensures |Run(items, recursive, step, fs).before| == 0 ==> Run(items, recursive, step, fs).fs == fs
  {
    if |items| > 0 {
      RunStep(items, recursive, step, fs);
      if !Processed(items[0], recursive) {
        RunNothingProcessed(items[1..], recursive, step, fs);
      }
    }
  }

  /** The loop ends with the file system the last step left. */
  lemma {:induction false} RunFinal(items: seq<WalkItem>, recursive: bool, step: StepFn, fs: set<Path>)
    ensures
      var r := Run(items, recursive, step, fs);
      var n := |r.before|;
      n > 0 ==> r.fs == step(Visited(items, recursive)[n - 1], r.before[n - 1]).fs
  {
    if |items| > 0 {
      RunStep(items, recursive, step, fs);
      if !Processed(items[0], recursive) {
        RunFinal(items[1..], recursive, step, fs);
      } else {
        var s := step(items[0].entry, fs);
        var rest := Run(items[1..], recursive, step, s.fs);
        var r := Run(items, recursive, step, fs);
        var vs, ws := Visited(items, recursive), Visited(items[1..], recursive);
        var n := |r.before|;
        if n > 1 {
          RunFinal(items[1..], recursive, step, s.fs);
          assert vs[n - 1] == ws[n - 2];
          assert r.before[n - 1] == rest.before[n - 2];
        } else {
          RunNothingProcessed(items[1..], recursive, step, s.fs);
          assert vs[0] == items[0].entry && r.before[0] == fs;
        }
      }
    }
  }

  /** A step that keeps every existing path and puts each placed file on a
      path that did not exist. */
  ghost predicate KeepsAndAdds(step: StepFn) {
    forall e, f ::
      && f <= step(e, f).fs
      && (step(e, f).outcome.Ok? ==> step(e, f).outcome.value !in f && step(e, f).outcome.value in step(e, f).fs)
  }

  /** With such a step the loop only grows the file system, and every file
      it places is new to the initial one and present at the end. */
  lemma {:induction false} RunKeepsAndAdds(items: seq<WalkItem>, recursive: bool, step: StepFn, fs: set<Path>)
    requires KeepsAndAdds(step)
    ensures fs <= Run(items, recursive, step, fs).fs
    ensures
      var r := Run(items, recursive, step, fs);
      forall i :: 0 <= i < |r.outcomes| && r.outcomes[i].Ok? ==>
        r.outcomes[i].value !in fs && r.outcomes[i].value in r.fs
  {
    if |items| > 0 {
      RunStep(items, recursive, step, fs);
      if !Processed(items[0], recursive) {
        RunKeepsAndAdds(items[1..], recursive, step, fs);
      } else {
        var s := step(items[0].entry, fs);
        RunKeepsAndAdds(items[1..], recursive, step, s.fs);
        var rest := Run(items[1..], recursive, step, s.fs);
        var r := Run(items, recursive, step, fs);
        forall i | 0 <= i < |r.outcomes| && r.outcomes[i].Ok?
          ensures r.outcomes[i].value !in fs && r.outcomes[i].value in r.fs
        {
          if i > 0 {
            assert r.outcomes[i] == rest.outcomes[i - 1];
          }
        }
      }
    }
  }

  /** No two successful outcomes name the same path. */
  predicate DistinctPlacements(os: seq<Result<Path, Error>>) {
    forall i, j :: 0 <= i < j < |os| && os[i].Ok? && os[j].Ok? ==> os[i].value != os[j].value
  }

  lemma DistinctPlacementsCons(o: Result<Path, Error>, rest: seq<Result<Path, Error>>, placed: set<Path>)
    requires o.Ok? ==> o.value in placed
    requires forall i :: 0 <= i < |rest| && rest[i].Ok? ==> rest[i].value !in placed
    requires DistinctPlacements(rest)
    ensures DistinctPlacements([o] + rest)
  {
    var os := [o] + rest;
    forall i, j | 0 <= i < j < |os| && os[i].Ok? && os[j].Ok?
      ensures os[i].value != os[j].value
    {
      assert os[j] == rest[j - 1];
      if i > 0 {
        assert os[i] == rest[i - 1];
      }
    }
  }

  /** With such a step no two files of one run land on the same path. */
  lemma {:induction false} RunPlacesDistinctFiles(items: seq<WalkItem>, recursive: bool, step: StepFn, fs: set<Path>)
    requires KeepsAndAdds(step)
    ensures DistinctPlacements(Run(items, recursive, step, fs).outcomes)
  {
    if |items| > 0 {
      RunStep(items, recursive, step, fs);
      if !Processed(items[0], recursive) {
        RunPlacesDistinctFiles(items[1..], recursive, step, fs);
      } else {
        var s := step(items[0].entry, fs);
        var rest := Run(items[1..], recursive, step, s.fs);
        RunPlacesDistinctFiles(items[1..], recursive, step, s.fs);
        RunKeepsAndAdds(items[1..], recursive, step, s.fs);
        DistinctPlacementsCons(s.outcome, rest.outcomes, s.fs);
      }
    }
  }

  /** `process_file` with the configuration `cfg`, as a step of the loop. */
  function Place(cfg: Config): StepFn {
    (e, f) => ProcessFile(e, cfg, f)
  }

  /** When copying, `process_file` keeps every existing path and places each
      file on a new one. */
  lemma CopyKeepsAndAdds(cfg: Config)
    requires !cfg.moveFiles
    ensures KeepsAndAdds(Place(cfg))
  {
    forall e, f
      ensures f <= Place(cfg)(e, f).fs
      ensures Place(cfg)(e, f).outcome.Ok? ==>
        Place(cfg)(e, f).outcome.value !in f && Place(cfg)(e, f).outcome.value in Place(cfg)(e, f).fs
    {
      assert Place(cfg)(e, f) == ProcessFile(e, cfg, f);
    }
  }

  /** `sort` over the walk `items`, starting from the existing paths `fs`.
      Every processed entry gets an outcome, whatever happened to the ones
      before it; the count is the number of successes.  When copying, the
      file system only grows and every placed file is new. */
  function SortFrom(items: seq<WalkItem>, recursive: bool, cfg: Config, fs: set<Path>): (r: Report)
    ensures |r.outcomes| == |r.before| == |Visited(items, recursive)|
    ensures r.count == CountOk(r.outcomes)
    ensures |r.before| > 0 ==> r.before[0] == fs
    ensures !cfg.moveFiles ==> fs <= r.fs
    ensures !cfg.moveFiles ==>
      forall i :: 0 <= i < |r.outcomes| && r.outcomes[i].Ok? ==>
        r.outcomes[i].value !in fs && r.outcomes[i].value in r.fs
  {
    if cfg.moveFiles then Run(items, recursive, Place(cfg), fs)
    else
      CopyKeepsAndAdds(cfg);
      RunKeepsAndAdds(items, recursive, Place(cfg), fs);
      Run(items, recursive, Place(cfg), fs)
  }

  /** Each processed entry's outcome is what `process_file` gives for that
      entry against the file system it was processed against; a failure
      never stops the entries after it. */
  lemma {:induction false} EveryEntryProcessed(items: seq<WalkItem>, recursive: bool, cfg: Config, fs: set<Path>, i: nat)
    requires i < |Visited(items, recursive)|
    ensures
      var r := SortFrom(items, recursive, cfg, fs);
      r.outcomes[i] == ProcessFile(Visited(items, recursive)[i], cfg, r.before[i]).outcome
  {
    RunOutcomes(items, recursive, Place(cfg), fs);
    var r := SortFrom(items, recursive, cfg, fs);
    var vs := Visited(items, recursive);
    assert Place(cfg)(vs[i], r.before[i]) == ProcessFile(vs[i], cfg, r.before[i]);
  }

  /** The file system each entry is processed against is the one
      `process_file` left after the previous entry; the first entry sees the
      initial one. */
  lemma {:induction false} FileSystemThreading(items: seq<WalkItem>, recursive: bool, cfg: Config, fs: set<Path>)
    ensures
      var r := SortFrom(items, recursive, cfg, fs);
      forall i :: 0 <= i < |r.before| - 1 ==>
        r.before[i + 1] == ProcessFile(Visited(items, recursive)[i], cfg, r.before[i]).fs
  {
    var r := Run(items, recursive, Place(cfg), fs);
    var vs := Visited(items, recursive);
    forall i | 0 <= i < |r.before| - 1
      ensures r.before[i + 1] == ProcessFile(vs[i], cfg, r.before[i]).fs
    {
      RunThreading(items, recursive, Place(cfg), fs, i);
      assert Place(cfg)(vs[i], r.before[i]) == ProcessFile(vs[i], cfg, r.before[i]);
    }
  }

  /** The batch ends with the file system `process_file` left after the last
      processed entry, or the initial one when nothing was processed. */
  lemma {:induction false} FinalFileSystem(items: seq<WalkItem>, recursive: bool, cfg: Config, fs: set<Path>)
    ensures |SortFrom(items, recursive, cfg, fs).before| == 0 ==> SortFrom(items, recursive, cfg, fs).fs == fs
    ensures
      var r := SortFrom(items, recursive, cfg, fs);
      var n := |r.before|;
      n > 0 ==> r.fs == ProcessFile(Visited(items, recursive)[n - 1], cfg, r.before[n - 1]).fs
  {
    RunNothingProcessed(items, recursive, Place(cfg), fs);
    RunFinal(items, recursive, Place(cfg), fs);
    var r := SortFrom(items, recursive, cfg, fs);
    var n := |r.before|;
    if n > 0 {
      var e := Visited(items, recursive)[n - 1];
      assert Place(cfg)(e, r.before[n - 1]) == ProcessFile(e, cfg, r.before[n - 1]);
    }
  }

  /** The loop of `sort`: one pass over the walk with a success counter. */
  method Sort(items: seq<WalkItem>, recursive: bool, cfg: Config, fs: set<Path>) returns (counter: nat)
    ensures counter == SortFrom(items, recursive, cfg, fs).count
    ensures counter <= |Visited(items, recursive)|
  {
    counter := 0;
    var current := fs;
    var i := 0;
    while i < |items|
      invariant 0 <= i <= |items|
      invariant counter + Run(items[i..], recursive, Place(cfg), current).count
             == SortFrom(items, recursive, cfg, fs).count
    {
      RunStep(items[i..], recursive, Place(cfg), current);
      assert items[i..][1..] == items[i + 1..];
      if Processed(items[i], recursive) {
        var step := ProcessFile(items[i].entry, cfg, current);
        assert step == Place(cfg)(items[i].entry, current);
        if step.outcome.Ok? {
          counter := counter + 1;
        }
        current := step.fs;
      }
      i := i + 1;
    }
  }

  /** When copying, no two files of a batch land on the same path (and, by
      the contract of `SortFrom`, none lands on a path that existed before
      the batch). */
  lemma CopyBatchPlacesDistinctFiles(items: seq<WalkItem>, recursive: bool, cfg: Config, fs: set<Path>)
    requires !cfg.moveFiles
    ensures DistinctPlacements(SortFrom(items, recursive, cfg, fs).outcomes)
  {
    CopyKeepsAndAdds(cfg);
    RunPlacesDistinctFiles(items, recursive, Place(cfg), fs);
  }

  /** No placement ever overwrites: each placed file goes to a path absent
      from the file system it was processed against. */
  lemma NoPlacementOverwrites(items: seq<WalkItem>, recursive: bool, cfg: Config, fs: set<Path>)
    ensures
      var r := SortFrom(items, recursive, cfg, fs);
      forall i :: 0 <= i < |r.outcomes| && r.outcomes[i].Ok? ==> r.outcomes[i].value !in r.before[i]
  {
    var r := SortFrom(items, recursive, cfg, fs);
    forall i | 0 <= i < |r.outcomes| && r.outcomes[i].Ok?
      ensures r.outcomes[i].value !in r.before[i]
    {
      EveryEntryProcessed(items, recursive, cfg, fs, i);
      var s := ProcessFile(Visited(items, recursive)[i], cfg, r.before[i]);
      assert r.outcomes[i] == s.outcome;
    }
  }
}

=== FILE: bytes.dfy ===
/** Raw octets, shared by OS strings and EXIF values. */
module Bytes {

  type Byte = b: int | 0 <= b < 256

  /** A byte with the high bit set: the only kind of byte that can fall
      outside valid UTF-8 text. */
  type HighByte = b: int | 0x80 <= b < 256 witness 0x80
}

=== FILE: collision.dfy ===
/** `change_file_name`: a free name for a file whose destination is taken,
    formed as `stem (k).ext` for the smallest counter `k >= 1` that is
    free. */
module Collision {
  import opened Wrappers
  import opened Paths
  import Decimal

  /** What `change_file_name` needs before it loops: a file name, and a
      stem that is valid text. */
  predicate Resolvable(p: Path) {
    && FileName(p).Some?
    && FileStem(p).Some?
    && ToStr(FileStem(p).value).Some?
  }

  /** `original_name`: the stem of `p` as text. */
  function StemText(p: Path): string
    requires Resolvable(p)
  {
    ToStr(FileStem(p).value).value
  }

  /** `format!("{} ({})", original_name, counter)`. */
  function CounterName(stem: string, k: nat): string {
    stem + " (" + Decimal.Dec(k) + ")"
  }

  /** The extension part of a renamed file: `.ext`, or nothing when the
      original has no extension or an empty one (`set_extension` writes no
      dot for an empty extension). */
  function ExtensionSuffix(p: Path): Name {
    match Extension(p)
    case Some(ext) => if |ext| > 0 then [Ch('.')] + ext else []
    case None => []
  }

  /** The path the k-th attempt is meant to produce: `stem (k)` plus the
      original extension, in the directory of `p`. */
  function Candidate(p: Path, k: nat): (r: Path)
    requires Resolvable(p)
    ensures FileName(r).Some? && Dir(r) == Dir(p)
  {
    SetFileName(p, FromText(CounterName(StemText(p), k)) + ExtensionSuffix(p))
  }

  /** One attempt as the loop body writes it: `set_file_name` with the
      counter name, then `set_extension` with the original extension when
      there is one.  `set_file_name` drops the previous attempt's name, so
      only the directory of the previous attempt survives, and that is the
      directory of `p`. */
  function RenameAsWritten(p: Path, k: nat): (r: Path)
    requires Resolvable(p)
    ensures FileName(r).Some? && Dir(r) == Dir(p)
  {
    var named := SetFileName(p, FromText(CounterName(StemText(p), k)));
    match Extension(p)
    case Some(ext) => SetExtension(named, ext)
    case None => named
  }

  lemma FromTextInjective(s: string, t: string)
    requires FromText(s) == FromText(t)
    ensures s == t
  {
    ToStrFromText(FromText(s), s);
    ToStrFromText(FromText(t), t);
  }

  /** Different counters give different paths. */
  lemma CandidateInjective(p: Path, j: nat, k: nat)
    requires Resolvable(p)
    requires Candidate(p, j) == Candidate(p, k)
    ensures j == k
  {
    var stem, sfx := StemText(p), ExtensionSuffix(p);
    var nj, nk := CounterName(stem, j), CounterName(stem, k);
    assert FromText(nj) + sfx == FileName(Candidate(p, j)).value;
    assert FromText(nk) + sfx == FileName(Candidate(p, k)).value;
    assert |nj| == |nk|;
    assert FromText(nj) == (FromText(nj) + sfx)[..|nj|];
    assert FromText(nk) == (FromText(nk) + sfx)[..|nk|];
    FromTextInjective(nj, nk);
    var dj, dk := Decimal.Dec(j), Decimal.Dec(k);
    assert dj == nj[|stem| + 2..|stem| + 2 + |dj|];
    assert dk == nk[|stem| + 2..|stem| + 2 + |dk|];
    Decimal.DecInjective(j, k);
  }

  /** If the attempts 1 .. k-1 are all taken, there are at least k-1 taken
      paths: the counter never passes `|taken| + 1`. */
  lemma {:induction false} CandidatesBound(p: Path, taken: set<Path>, k: nat)
    requires Resolvable(p) && k >= 1
    requires forall j :: 1 <= j < k ==> Candidate(p, j) in taken
    ensures k - 1 <= |taken|
    decreases k
  {
    if k > 1 {
      var c := Candidate(p, k - 1);
      var rest := taken - {c};
      forall j | 1 <= j < k - 1
        ensures Candidate(p, j) in rest
      {
        if Candidate(p, j) == c {
          CandidateInjective(p, j, k - 1);
        }
      }
      CandidatesBound(p, rest, k - 1);
    }
  }

  /** The smallest free counter from `k` on, given that the counters below
      `k` are taken. */
  function FirstFree(p: Path, taken: set<Path>, k: nat): (n: nat)
    requires Resolvable(p) && k >= 1
    requires forall j :: 1 <= j < k ==> Candidate(p, j) in taken
    ensures n >= k
    ensures Candidate(p, n) !in taken
    ensures forall j :: 1 <= j < n ==> Candidate(p, j) in taken
    decreases |taken| + 1 - k
  {
    if Candidate(p, k) !in taken then k
    else
      CandidatesBound(p, taken, k + 1);
      FirstFree(p, taken, k + 1)
  }

  /** A counter with every smaller one taken and itself free is the one
      `FirstFree` finds. */
  lemma FirstFreeUnique(p: Path, taken: set<Path>, n: nat)
    requires Resolvable(p) && n >= 1
    requires Candidate(p, n) !in taken
    requires forall j :: 1 <= j < n ==> Candidate(p, j) in taken
    ensures n == FirstFree(p, taken, 1)
  {
  }

  /** What `change_file_name` returns, given the set of existing paths. */
  function Resolve(p: Path, taken: set<Path>): (r: Option<Path>)
    ensures r.None? <==> !Resolvable(p)
    ensures r.Some? ==> r.value !in taken && FileName(r.value).Some? && Dir(r.value) == Dir(p)
    ensures r.Some? && p !in taken ==> r.value == p
    ensures r.Some? && p in taken ==>
      exists k :: k >= 1 && r.value == Candidate(p, k) &&
        forall j :: 1 <= j < k ==> Candidate(p, j) in taken
  {
    if !Resolvable(p) then None
    else if p !in taken then Some(p)
    else Some(Candidate(p, FirstFree(p, taken, 1)))
  }

  /** The rename loop.  It keeps the directory, and returns the first of
      `p`, `stem (1).ext`, `stem (2).ext`, ... that does not exist; it
      fails only when `p` has no file name or its stem is not valid text. */
  method ChangeFileName(p: Path, taken: set<Path>) returns (r: Option<Path>)
    ensures r.None? <==> FileName(p).None? || ToStr(FileStem(p).value).None?
    ensures r.Some? ==>
      r.value !in taken && FileName(p).Some? && FileName(r.value).Some? && Dir(r.value) == Dir(p)
    ensures r.Some? && p in taken ==>
      && Resolvable(p)
      && exists k :: k >= 1 && r.value == Candidate(p, k) &&
           forall j :: 1 <= j < k ==> Candidate(p, j) in taken
    ensures r == Resolve(p, taken)
  {
    if FileName(p).None? {
      return None;
    }
    StemExtensionPartition(p);
    if ToStr(FileStem(p).value).None? {
      return None;
    }
    assert Resolvable(p);
    var result := p;
    var counter: nat := 1;
    while result in taken
      invariant counter >= 1
      invariant counter == 1 ==> result == p
      invariant counter > 1 ==> p in taken
      invariant counter > 1 ==> result == Candidate(p, counter - 1)
      invariant forall j :: 1 <= j < counter - 1 ==> Candidate(p, j) in taken
      decreases |taken| + 1 - counter
    {
      CandidatesBound(p, taken, counter);
      result := Candidate(p, counter);
      counter := counter + 1;
    }
    if counter > 1 {
      FirstFreeUnique(p, taken, counter - 1);
    }
    return Some(result);
  }

  /** When the stem has no dot after its first character, or there is no
      extension, the loop body as written produces exactly the intended
      candidate. */
  lemma AsWrittenAgrees(p: Path, k: nat)
    requires Resolvable(p)
    requires Extension(p).None? || forall j :: 0 < j < |StemText(p)| ==> StemText(p)[j] != '.'
    ensures RenameAsWritten(p, k) == Candidate(p, k)
  {
    var stem := StemText(p);
    var n := FromText(CounterName(stem, k));
    var named := SetFileName(p, n);
    match Extension(p)
    case None =>
      assert n + ExtensionSuffix(p) == n;
    case Some(ext) =>
      var tail := " (" + Decimal.Dec(k) + ")";
      assert CounterName(stem, k) == stem + tail;
      FromTextAppend(stem, tail);
      forall j | 0 <= j < |FromText(tail)|
        ensures !IsDot(FromText(tail)[j])
      {
        FromTextAt(tail, j);
      }
      LastDotAppendUndotted(FromText(stem), FromText(tail));
      var ld := LastDot(FromText(stem));
      if ld.Some? {
        FromTextAt(stem, ld.value);
      }
      assert n != DotDot by {
        assert |n| >= 4;
      }
      assert FileStem(named) == Some(n);
  }
}

module DottedStem {
  import opened Wrappers
  import opened Paths
  import opened Collision
  import Decimal

  const DirD: Component := Normal([Ch('d')])

  /** `d/a.b.jpg`: a file whose stem `a.b` contains a dot. */
  const DottedFile: Path := Path(false, [DirD, Normal([Ch('a'), Ch('.'), Ch('b'), Ch('.'), Ch('j'), Ch('p'), Ch('g')])])

  /** `d/a.jpg`: what every attempt of the loop as written produces for it. */
  const StrippedFile: Path := Path(false, [DirD, Normal([Ch('a'), Ch('.'), Ch('j'), Ch('p'), Ch('g')])])

  /** `d/a.b (1).jpg`: the name meant for the first attempt. */
  const IntendedFile: Path := Path(false, [DirD, Normal(FromText("a.b (1).jpg"))])

  lemma DottedFileParts()
    ensures Resolvable(DottedFile)
    ensures StemText(DottedFile) == "a.b"
    ensures Extension(DottedFile) == Some([Ch('j'), Ch('p'), Ch('g')])
  {
    var n := FileName(DottedFile).value;
    var ld := LastDot(n);
    assert IsDot(n[3]);
    assert ld == Some(3);
    var stem := n[..3];
    assert stem == [Ch('a'), Ch('.'), Ch('b')];
    assert IsText(stem);
    assert seq(|stem|, i requires 0 <= i < |stem| => stem[i].c) == "a.b";
  }

  /** The loop body as written turns `d/a.b.jpg` into `d/a.jpg` for every
      counter: `set_extension` re-splits `a.b (k)` at its last dot and cuts
      the counter off.  If `d/a.jpg` also exists, every attempt is taken and
      the loop never ends; if it does not, the file is placed under a name
      that drops `.b`. */
  lemma DottedStemLosesCounter()
    ensures Resolvable(DottedFile)
    ensures forall k: nat :: RenameAsWritten(DottedFile, k) == StrippedFile
  {
    DottedFileParts();
    forall k: nat
      ensures RenameAsWritten(DottedFile, k) == StrippedFile
    {
      var tail := " (" + Decimal.Dec(k) + ")";
      assert CounterName("a.b", k) == "a.b" + tail;
      FromTextAppend("a.b", tail);
      forall j | 0 <= j < |FromText(tail)|
        ensures !IsDot(FromText(tail)[j])
      {
        FromTextAt(tail, j);
      }
      LastDotAppendUndotted(FromText("a.b"), FromText(tail));
      var s := FromText("a.b");
      FromTextAt("a.b", 0);
      FromTextAt("a.b", 1);
      FromTextAt("a.b", 2);
      assert LastDot(s) == Some(1);
      var n := FromText(CounterName("a.b", k));
      assert n[..1] == [Ch('a')];
      assert n != DotDot by {
        assert |n| >= 4;
      }
      var named := SetFileName(DottedFile, n);
      assert named.comps == [DirD, Normal(n)];
      assert FileStem(named) == Some([Ch('a')]);
      var ext := [Ch('j'), Ch('p'), Ch('g')];
      assert SetExtension(named, ext) == SetFileName(named, [Ch('a')] + ([Ch('.')] + ext));
      assert [Ch('a')] + ([Ch('.')] + ext) == [Ch('a'), Ch('.'), Ch('j'), Ch('p'), Ch('g')];
    }
  }

  lemma IntendedName()
    ensures FromText("a.b (1).jpg") == FromText("a.b (1)") + [Ch('.'), Ch('j'), Ch('p'), Ch('g')]
  {
    FromTextAppend("a.b (1)", ".jpg");
    assert "a.b (1)" + ".jpg" == "a.b (1).jpg";
    assert FromText(".jpg") == [Ch('.'), Ch('j'), Ch('p'), Ch('g')] by {
      FromTextAt(".jpg", 0);
      FromTextAt(".jpg", 1);
      FromTextAt(".jpg", 2);
      FromTextAt(".jpg", 3);
    }
  }

  lemma FirstCounterName()
    ensures CounterName("a.b", 1) == "a.b (1)"
  {
    assert Decimal.Dec(1) == "1";
  }

  lemma FirstCandidateIsIntended()
    ensures Resolvable(DottedFile)
    ensures Candidate(DottedFile, 1) == IntendedFile
  {
    DottedFileParts();
    var sfx := [Ch('.'), Ch('j'), Ch('p'), Ch('g')];
    assert ExtensionSuffix(DottedFile) == sfx;
    FirstCounterName();
    var n := FromText("a.b (1)") + sfx;
    assert Candidate(DottedFile, 1) == SetFileName(DottedFile, n);
    assert SetFileName(DottedFile, n) == Path(false, [DirD, Normal(n)]);
    IntendedName();
  }

  /** The corrected resolver gives `d/a.b (1).jpg` whether or not `d/a.jpg`
      exists. */
  lemma DottedStemResolved()
    ensures Resolve(DottedFile, {DottedFile}) == Some(IntendedFile)
    ensures Resolve(DottedFile, {DottedFile, StrippedFile}) == Some(IntendedFile)
  {
    FirstCandidateIsIntended();
    assert |FileName(IntendedFile).value| == 11;
    FirstFreeUnique(DottedFile, {DottedFile}, 1);
    FirstFreeUnique(DottedFile, {DottedFile, StrippedFile}, 1);
  }
}

=== FILE: datetimes.dfy ===
/** A calendar date and time of day in UTC, as the sorter compares them. */
module DateTimes {

  /** `DateTime<Utc>` reduced to the fields the sorter uses.  The fields are
      kept as plain integers: the parsers that produce them are outside the
      model and are assumed to yield valid calendar values. */
  datatype DateTime = DateTime(year: int, month: int, day: int,
                               hour: int, minute: int, second: int)

  /** `a <= b` in time: the fields compared lexicographically, most
      significant first.  For valid calendar values this is chronological
      order. */
  predicate Le(a: DateTime, b: DateTime) {
    if a.year != b.year then a.year < b.year
    else if a.month != b.month then a.month < b.month
    else if a.day != b.day then a.day < b.day
    else if a.hour != b.hour then a.hour < b.hour
    else if a.minute != b.minute then a.minute < b.minute
    else a.second <= b.second
  }

  /** `Le` is a total order, so a minimum of finitely many dates exists and
      is unique. */
  lemma LeTotalOrder(a: DateTime, b: DateTime, c: DateTime)
    ensures Le(a, a)
    ensures Le(a, b) || Le(b, a)
    ensures Le(a, b) && Le(b, a) ==> a == b
    ensures Le(a, b) && Le(b, c) ==> Le(a, c)
  {
  }
}

=== FILE: decimal.dfy ===
/** Decimal rendering of a counter, as `format!("{}", n)` writes it. */
module Decimal {

  /** The ASCII digit for `d`. */
  function DigitChar(d: nat): (c: char)
    requires d < 10
    ensures '0' <= c <= '9'
  {
    ['0', '1', '2', '3', '4', '5', '6', '7', '8', '9'][d]
  }

  /** The value of an ASCII digit. */
  function DigitValue(c: char): (d: nat)
    requires '0' <= c <= '9'
    ensures d < 10
  {
    (c as int - '0' as int) as nat
  }

  predicate IsDigits(s: string) {
    forall i :: 0 <= i < |s| ==> '0' <= s[i] <= '9'
  }

  /** `n` written in base ten without leading zeros. */
  function Dec(n: nat): (s: string)
    ensures |s| > 0 && IsDigits(s)
    ensures n < 10 <==> |s| == 1
  {
    if n < 10 then [DigitChar(n)] else Dec(n / 10) + [DigitChar(n % 10)]
  }

  /** The number a string of decimal digits denotes. */
  function ParseDec(s: string): nat
    requires IsDigits(s)
  {
    if |s| == 0 then 0 else ParseDec(s[..|s| - 1]) * 10 + DigitValue(s[|s| - 1])
  }

  /** Reading back what `Dec` wrote gives the number again. */
  lemma {:induction false} ParseDecRoundTrip(n: nat)
    ensures ParseDec(Dec(n)) == n
  {
    var s := Dec(n);
    if n < 10 {
      assert s[..|s| - 1] == [];
    } else {
      assert s[..|s| - 1] == Dec(n / 10);
      ParseDecRoundTrip(n / 10);
    }
  }

  /** Different counters are written differently. */
  lemma DecInjective(a: nat, b: nat)
    requires Dec(a) == Dec(b)
    ensures a == b
  {
    ParseDecRoundTrip(a);
    ParseDecRoundTrip(b);
  }
}

=== FILE: exif.dfy ===
/** `get_exif`: the earliest of the capture dates recorded in a file's EXIF
    metadata. */
module Exif {
  import opened Wrappers
  import opened DateTimes
  import opened Bytes

  /** The image file directory a field belongs to (`exif::In`). */
  datatype In = In(index: nat)

  /** The main image, as opposed to the thumbnail (`In::PRIMARY`). */
  const Primary: In := In(0)

  /** The name space a tag number lives in (`exif::Context`). */
  datatype Context = Tiff | ExifIfd | Gps | Interop

  /** `exif::Tag`: a context and a tag number. */
  datatype Tag = Tag(context: Context, number: nat)

  const DateTimeTag: Tag := Tag(Tiff, 0x0132)
  const DateTimeOriginal: Tag := Tag(ExifIfd, 0x9003)
  const DateTimeDigitized: Tag := Tag(ExifIfd, 0x9004)

  /** The tags `get_exif` reads, in the order it reads them. */
  const DateTags: seq<Tag> := [DateTimeTag, DateTimeOriginal, DateTimeDigitized]

  /** A field value: a list of ASCII strings, or any of the other EXIF value
      types, none of which carries a date for `get_exif`. */
  datatype Value = Ascii(strings: seq<seq<Byte>>) | NonAscii

  datatype FieldKey = FieldKey(ifd: In, tag: Tag)

  /** A parsed EXIF container: at most one field per IFD and tag. */
  datatype ExifData = ExifData(fields: map<FieldKey, Value>)

  /** `exif::DateTime::from_ascii` followed by the conversion to a UTC date
      and time; the parser is not part of this model. */
  type AsciiDateParser = seq<Byte> -> Option<DateTime>

  /** `Exif::get_field`. */
  function GetField(e: ExifData, tag: Tag, ifd: In): Option<Value> {
    var key := FieldKey(ifd, tag);
    if key in e.fields then Some(e.fields[key]) else None
  }

  /** The candidate date one tag contributes: present in the primary IFD, an
      ASCII value with at least one string, and the first string parses. */
  function TagDate(e: ExifData, tag: Tag, parse: AsciiDateParser): Option<DateTime> {
    match GetField(e, tag, Primary)
    case Some(Ascii(strings)) => if |strings| > 0 then parse(strings[0]) else None
    case _ => None
  }

  /** The vector `c` of `get_exif`: the candidates of `tags`, in order. */
  function CollectDates(e: ExifData, tags: seq<Tag>, parse: AsciiDateParser): (ds: seq<DateTime>)
    ensures |ds| <= |tags|
    ensures forall d :: d in ds <==>
      exists i :: 0 <= i < |tags| && TagDate(e, tags[i], parse) == Some(d)
  {
    if |tags| == 0 then []
    else
      var rest := CollectDates(e, tags[1..], parse);
      assert forall i :: 0 < i < |tags| ==> tags[i] == tags[1..][i - 1];
      match TagDate(e, tags[0], parse)
      case Some(d) => [d] + rest
      case None => rest
  }

  /** `Iterator::min` over dates: a least element, or `None` for no
      elements. */
  function MinDate(ds: seq<DateTime>): (r: Option<DateTime>)
    ensures r.Some? <==> |ds| > 0
    ensures r.Some? ==> r.value in ds && forall d :: d in ds ==> Le(r.value, d)
  {
    if |ds| == 0 then None
    else match MinDate(ds[1..])
      case None => Some(ds[0])
      case Some(m) =>
        LeTotalOrder(ds[0], m, ds[0]);
        assert forall d :: d in ds ==> d == ds[0] || d in ds[1..];
        if Le(ds[0], m) then Some(ds[0]) else Some(m)
  }

  /** `get_exif`: `read` is the outcome of `read_from_container` (`None`
      when it failed).  A failed read is no date, not an error; otherwise the
      result is the least of the candidate dates, and there is one exactly
      when some tag yields a candidate. */
  function GetExif(read: Option<ExifData>, parse: AsciiDateParser): (r: Option<DateTime>)
    ensures read.None? ==> r == None
    ensures read.Some? ==>
      (r.Some? <==> exists i :: 0 <= i < |DateTags| && TagDate(read.value, DateTags[i], parse).Some?)
    ensures r.Some? ==>
      exists i :: 0 <= i < |DateTags| && TagDate(read.value, DateTags[i], parse) == Some(r.value)
    ensures r.Some? ==>
      forall i :: 0 <= i < |DateTags| && TagDate(read.value, DateTags[i], parse).Some? ==>
        Le(r.value, TagDate(read.value, DateTags[i], parse).value)
  {
    match read
    case None => None
    case Some(e) =>
      var ds := CollectDates(e, DateTags, parse);
      var r := MinDate(ds);
      assert forall i :: 0 <= i < |DateTags| && TagDate(e, DateTags[i], parse).Some? ==>
        TagDate(e, DateTags[i], parse).value in ds;
      r
  }

  lemma CollectDatesAgree(e1: ExifData, e2: ExifData, tags: seq<Tag>, parse: AsciiDateParser)
    requires forall i :: 0 <= i < |tags| ==> TagDate(e1, tags[i], parse) == TagDate(e2, tags[i], parse)
    ensures CollectDates(e1, tags, parse) == CollectDates(e2, tags, parse)
  {
    if |tags| > 0 {
      CollectDatesAgree(e1, e2, tags[1..], parse);
    }
  }

  /** Only the three date fields of the primary IFD matter: containers that
      agree on them give the same date, whatever else they hold. */
  lemma OnlyPrimaryDateFieldsMatter(e1: ExifData, e2: ExifData, parse: AsciiDateParser)
    requires forall i :: 0 <= i < |DateTags| ==>
      GetField(e1, DateTags[i], Primary) == GetField(e2, DateTags[i], Primary)
    ensures GetExif(Some(e1), parse) == GetExif(Some(e2), parse)
  {
    CollectDatesAgree(e1, e2, DateTags, parse);
  }

  /** A date field that is not ASCII, holds no string, or does not parse is
      skipped silently: dropping it from the container changes nothing. */
  lemma SkippedFieldIgnored(e: ExifData, i: nat, parse: AsciiDateParser)
    requires i < |DateTags|
    requires FieldKey(Primary, DateTags[i]) in e.fields
    requires match e.fields[FieldKey(Primary, DateTags[i])]
      case NonAscii => true
      case Ascii(strings) => |strings| == 0 || parse(strings[0]).None?
    ensures GetExif(Some(ExifData(e.fields - {FieldKey(Primary, DateTags[i])})), parse)
         == GetExif(Some(e), parse)
  {
    var e' := ExifData(e.fields - {FieldKey(Primary, DateTags[i])});
    forall j | 0 <= j < |DateTags|
      ensures TagDate(e', DateTags[j], parse) == TagDate(e, DateTags[j], parse)
    {
    }
    CollectDatesAgree(e', e, DateTags, parse);
  }

  /** A container whose `DateTime` says 09:00 and whose `DateTimeOriginal`
      says 10:00 on the same day resolves to 09:00. */
  lemma EarlierTagWins(e: ExifData, parse: AsciiDateParser, v1: seq<Byte>, v2: seq<Byte>)
    requires GetField(e, DateTimeTag, Primary) == Some(Ascii([v1]))
    requires GetField(e, DateTimeOriginal, Primary) == Some(Ascii([v2]))
    requires GetField(e, DateTimeDigitized, Primary) == None
    requires parse(v1) == Some(DateTime(2021, 6, 1, 9, 0, 0))
    requires parse(v2) == Some(DateTime(2021, 6, 1, 10, 0, 0))
    ensures GetExif(Some(e), parse) == Some(DateTime(2021, 6, 1, 9, 0, 0))
  {
    assert TagDate(e, DateTags[0], parse) == Some(DateTime(2021, 6, 1, 9, 0, 0));
    assert TagDate(e, DateTags[1], parse) == Some(DateTime(2021, 6, 1, 10, 0, 0));
    assert TagDate(e, DateTags[2], parse) == None;
  }
}

=== FILE: paths.dfy ===
/** The part of Rust's `std::path` the sorter relies on, over an abstract
    representation of OS strings and paths. */
module Paths {
  import opened Wrappers
  import opened Bytes

  /** One unit of an OS string: a character of valid text, or a raw byte that
      is not part of a valid UTF-8 encoding.  Such a byte is at least 0x80,
      so it is never `.` or `/`. */
  datatype OsUnit = Ch(c: char) | Raw(b: HighByte)

  /** An `OsStr`: a file name or one component of a path. */
  type Name = seq<OsUnit>

  /** A path component after parsing: `..` or a named component.  The root
      is folded into `Path.absolute`, and `.` components are dropped (Rust
      keeps a leading `.`; this model does not). */
  datatype Component = ParentDir | Normal(name: Name)

  datatype Path = Path(absolute: bool, comps: seq<Component>)

  /** The `OsStr` view of a `&str`. */
  function FromText(s: string): (n: Name)
    ensures |n| == |s|
  {
    if |s| == 0 then [] else [Ch(s[0])] + FromText(s[1..])
  }

  lemma {:induction false} FromTextAt(s: string, i: nat)
    requires i < |s|
    ensures FromText(s)[i] == Ch(s[i])
  {
    if i > 0 {
      FromTextAt(s[1..], i - 1);
    }
  }

  lemma FromTextAppend(s: string, t: string)
    ensures FromText(s + t) == FromText(s) + FromText(t)
  {
    var l, r := FromText(s + t), FromText(s) + FromText(t);
    forall i | 0 <= i < |l|
      ensures l[i] == r[i]
    {
      FromTextAt(s + t, i);
      if i < |s| {
        FromTextAt(s, i);
      } else {
        FromTextAt(t, i - |s|);
      }
    }
  }

  predicate IsText(n: Name) {
    forall i :: 0 <= i < |n| ==> n[i].Ch?
  }

  /** `OsStr::to_str`: the text of `n`, or `None` when `n` is not valid
      UTF-8. */
  function ToStr(n: Name): Option<string> {
    if IsText(n) then Some(seq(|n|, i requires 0 <= i < |n| => n[i].c)) else None
  }

  /** `to_str` succeeds exactly on names that came from text, and gives that
      text back. */
  lemma ToStrFromText(n: Name, s: string)
    ensures ToStr(n) == Some(s) <==> n == FromText(s)
  {
    if n == FromText(s) {
      forall i | 0 <= i < |s| ensures n[i] == Ch(s[i]) {
        FromTextAt(s, i);
      }
      assert IsText(n);
      assert seq(|n|, i requires 0 <= i < |n| => n[i].c) == s;
    }
    if ToStr(n) == Some(s) {
      assert |n| == |s|;
      forall i | 0 <= i < |s| ensures n[i] == FromText(s)[i] {
        assert n[i].Ch? && s[i] == n[i].c;
        FromTextAt(s, i);
      }
    }
  }

  predicate IsDot(u: OsUnit) {
    u == Ch('.')
  }

  const DotDot: Name := [Ch('.'), Ch('.')]

  /** The position of the last `.` in `n`, if any. */
  function LastDot(n: Name): (r: Option<nat>)
    ensures r.Some? ==> r.value < |n| && IsDot(n[r.value])
    ensures r.Some? ==> forall j :: r.value < j < |n| ==> !IsDot(n[j])
    ensures r.None? ==> forall j :: 0 <= j < |n| ==> !IsDot(n[j])
  {
    if |n| == 0 then None
    else if IsDot(n[|n| - 1]) then Some(|n| - 1)
    else LastDot(n[..|n| - 1])
  }

  /** Appending a part without dots does not move the last dot. */
  lemma LastDotAppendUndotted(a: Name, b: Name)
    requires forall j :: 0 <= j < |b| ==> !IsDot(b[j])
    ensures LastDot(a + b) == LastDot(a)
  {
    if |b| > 0 {
      assert (a + b)[..|a + b| - 1] == a + b[..|b| - 1];
      LastDotAppendUndotted(a, b[..|b| - 1]);
    } else {
      assert a + b == a;
    }
  }

  /** Rust's `rsplit_file_at_dot`: the part before and after the last dot of
      a file name.  `..` and names whose only dot leads are not split. */
  function RSplitAtDot(n: Name): (Option<Name>, Option<Name>) {
    if n == DotDot then (Some(n), None)
    else match LastDot(n)
      case None => (None, Some(n))
      case Some(i) => if i == 0 then (Some(n), None) else (Some(n[..i]), Some(n[i + 1..]))
  }

  /** `Path::file_name`: the last component when it is a named one. */
  function FileName(p: Path): Option<Name> {
    if |p.comps| > 0 && p.comps[|p.comps| - 1].Normal? then Some(p.comps[|p.comps| - 1].name)
    else None
  }

  /** `Path::file_stem`: `before.or(after)` of the split file name. */
  function FileStem(p: Path): Option<Name> {
    match FileName(p)
    case None => None
    case Some(n) =>
      var (before, after) := RSplitAtDot(n);
      if before.Some? then before else after
  }

  /** `Path::extension`: `before.and(after)` of the split file name. */
  function Extension(p: Path): Option<Name> {
    match FileName(p)
    case None => None
    case Some(n) =>
      var (before, after) := RSplitAtDot(n);
      if before.Some? then after else None
  }

  /** Stem and extension partition the file name: with an extension the name
      is `stem.ext` and the extension holds no dot; without one the stem is
      the whole name.  A path has a stem exactly when it has a file name. */
  lemma StemExtensionPartition(p: Path)
    ensures FileStem(p).Some? <==> FileName(p).Some?
    ensures Extension(p).Some? ==>
      FileName(p).value == FileStem(p).value + [Ch('.')] + Extension(p).value
    ensures Extension(p).Some? ==>
      forall j :: 0 <= j < |Extension(p).value| ==> !IsDot(Extension(p).value[j])
    ensures FileName(p).Some? && Extension(p).None? ==> FileStem(p) == FileName(p)
  {
    if FileName(p).Some? {
      var n := FileName(p).value;
      if n != DotDot && LastDot(n).Some? && LastDot(n).value != 0 {
        var i := LastDot(n).value;
        assert n == n[..i] + [Ch('.')] + n[i + 1..];
        var ext := n[i + 1..];
        forall j | 0 <= j < |ext| ensures !IsDot(ext[j]) {
          assert ext[j] == n[i + 1 + j];
        }
      }
    }
  }

  /** The stem of a file name that is valid text is valid text too: it is a
      prefix of the name. */
  lemma StemOfText(p: Path)
    requires FileName(p).Some? && IsText(FileName(p).value)
    ensures FileStem(p).Some? && IsText(FileStem(p).value)
  {
    var n := FileName(p).value;
    if n != DotDot && LastDot(n).Some? && LastDot(n).value != 0 {
      var i := LastDot(n).value;
      assert forall j :: 0 <= j < i ==> n[..i][j] == n[j];
    }
  }

  /** The directory part of a path that has a file name. */
  function Dir(p: Path): Path
    requires FileName(p).Some?
  {
    Path(p.absolute, p.comps[..|p.comps| - 1])
  }

  /** `PathBuf::set_file_name`: replace the file name if there is one,
      otherwise append the new name. */
  function SetFileName(p: Path, n: Name): (r: Path)
    ensures FileName(r) == Some(n)
    ensures FileName(p).Some? ==> Dir(r) == Dir(p)
    ensures FileName(p).None? ==> Dir(r) == p
  {
    if FileName(p).Some? then Path(p.absolute, p.comps[..|p.comps| - 1] + [Normal(n)])
    else Path(p.absolute, p.comps + [Normal(n)])
  }

  /** `PathBuf::set_extension`: cut the file name right after its stem, then
      append `.ext` unless `ext` is empty.  A path without a stem is left
      unchanged. */
  function SetExtension(p: Path, ext: Name): (r: Path)
    ensures FileStem(p).None? ==> r == p
    ensures FileStem(p).Some? ==> FileName(r).Some? && Dir(r) == Dir(p)
    ensures FileStem(p).Some? ==>
      FileName(r) == Some(FileStem(p).value + (if |ext| > 0 then [Ch('.')] + ext else []))
  {
    match FileStem(p)
    case None => p
    case Some(stem) =>
      StemExtensionPartition(p);
      SetFileName(p, stem + (if |ext| > 0 then [Ch('.')] + ext else []))
  }

  /** `Path::join`: an absolute right-hand side replaces the base. */
  function Join(base: Path, rel: Path): (r: Path)
    ensures r.absolute == (base.absolute || rel.absolute)
    ensures FileName(rel).Some? ==> FileName(r) == FileName(rel)
  {
    if rel.absolute then rel else Path(base.absolute, base.comps + rel.comps)
  }

  /** The components of a join: the result ends with those of `rel`; a
      relative `rel` comes after all of `base`, an absolute one stands
      alone. */
  lemma JoinComponents(base: Path, rel: Path)
    ensures var r := Join(base, rel);
      && |rel.comps| <= |r.comps| && r.comps[|r.comps| - |rel.comps|..] == rel.comps
      && (rel.absolute ==> |r.comps| == |rel.comps|)
      && (!rel.absolute ==> |r.comps| == |base.comps| + |rel.comps| && r.comps[..|base.comps|] == base.comps)
  {
  }

  /** `dir.join(name)` for a single file name. */
  function JoinName(dir: Path, n: Name): (r: Path)
    ensures FileName(r) == Some(n) && Dir(r) == dir
  {
    Join(dir, Path(false, [Normal(n)]))
  }

  /** Every directory `create_dir_all(d)` leaves in place: `d` and its
      non-empty prefixes. */
  function DirsOf(d: Path): (ds: set<Path>)
    ensures d.comps != [] ==> d in ds
    ensures forall q :: q in ds ==> q.absolute == d.absolute && 0 < |q.comps| <= |d.comps|
  {
    var ds := set i | 1 <= i <= |d.comps| :: Path(d.absolute, d.comps[..i]);
    assert d.comps != [] ==> d == Path(d.absolute, d.comps[..|d.comps|]);
    ds
  }

  /** No directory created for `d` is a file placed in `d`. */
  lemma FileNotAmongItsDirs(f: Path)
    requires FileName(f).Some?
    ensures f !in DirsOf(Dir(f))
  {
  }
}

=== FILE: placement.dfy ===
/** `process_file`: the date a file is sorted by, where it goes, and what the
    copy or move leaves in the file system. */
module Placement {
  import opened Wrappers
  import opened DateTimes
  import opened Paths
  import Exif
  import Collision

  /** The operating system's reason for a failed call. */
  datatype IoError = IoError(reason: string)

  /** Why one file could not be placed, one variant per cause. */
  datatype Error =
    | OpenFailed(io: IoError)        // `File::open`
    | MetadataFailed(io: IoError)    // `entry.metadata()`
    | ModifiedFailed(io: IoError)    // `modified()`, consulted after `created()` failed
    | NameNotText                    // the file name is not valid UTF-8
    | CollisionUnresolved            // `change_file_name` returned `None`
    | CreateDirFailed(io: IoError)   // `create_dir_all`
    | TransferFailed(io: IoError)    // `rename` or `copy`

  /** The two file-system timestamps `process_file` may consult. */
  datatype Times = Times(created: Result<DateTime, IoError>, modified: Result<DateTime, IoError>)

  datatype FileType = RegularFile | Directory | Symlink | OtherType

  /** The answers the file system gives for one entry.  `exif` is the outcome
      of `read_from_container` (`None` when it failed).  `metadata` answers
      the `metadata()` call made to read `created()`; `metadataAgain`
      answers the separate `metadata()` call made to read `modified()`. */
  datatype FileIo = FileIo(
    open: Outcome<IoError>,
    exif: Option<Exif.ExifData>,
    metadata: Result<Times, IoError>,
    metadataAgain: Result<Times, IoError>,
    createDir: Outcome<IoError>,
    transfer: Outcome<IoError>)

  /** A `walkdir::DirEntry` together with what the file system answers for
      it.  In `walkdir`, `fileName` is the last component of `path`; the
      model does not tie the two fields, and no property here needs them
      tied: placement uses only `fileName`, and a move removes `path`. */
  datatype Entry = Entry(path: Path, fileName: Name, depth: nat, fileType: FileType, io: FileIo)

  /** The run's settings: the output root, the date-to-path rendering of the
      format string (`date.format(format_str)` read as a path), the EXIF date
      parser, and copy or move. */
  datatype Config = Config(
    output: Path,
    render: DateTime -> Path,
    parse: Exif.AsciiDateParser,
    moveFiles: bool)

  /** The result of processing one file, and the file system after it. */
  datatype Step = Step(outcome: Result<Path, Error>, fs: set<Path>)

  /** The date fallback chain: the EXIF date, else `created()` from a first
      `metadata()` call, else `modified()` from a second `metadata()` call.
      Only a failing `metadata()` call or a failing `modified()` is an
      error. */
  function ResolveDate(exifDate: Option<DateTime>, metadata: Result<Times, IoError>,
                       metadataAgain: Result<Times, IoError>): (r: Result<DateTime, Error>)
    ensures r.Err? <==>
      && exifDate.None?
      && (|| metadata.Err?
          || (metadata.value.created.Err? && (metadataAgain.Err? || metadataAgain.value.modified.Err?)))
    ensures r.Err? && metadata.Err? ==> r.error == MetadataFailed(metadata.error)
    ensures r.Err? && metadata.Ok? && metadataAgain.Err? ==> r.error == MetadataFailed(metadataAgain.error)
    ensures r.Err? && metadata.Ok? && metadataAgain.Ok? ==>
      r.error == ModifiedFailed(metadataAgain.value.modified.error)
    ensures r.Ok? ==>
      || exifDate == Some(r.value)
      || (metadata.Ok? && metadata.value.created == Ok(r.value))
      || (metadataAgain.Ok? && metadataAgain.value.modified == Ok(r.value))
  {
    match exifDate
    case Some(d) => Ok(d)
    case None =>
      match metadata
      case Err(e) => Err(MetadataFailed(e))
      case Ok(times) =>
        match times.created
        case Ok(c) => Ok(c)
        case Err(_) =>
          match metadataAgain
          case Err(e) => Err(MetadataFailed(e))
          case Ok(again) =>
            match again.modified
            case Ok(m) => Ok(m)
            case Err(e) => Err(ModifiedFailed(e))
  }

  /** The fallback order, stated as what is consulted: with an EXIF date no
      metadata is looked at (even failing metadata); once `created()`
      succeeds the second `metadata()` call is not consulted; and the
      `modified()` of the first call is never consulted. */
  lemma FallbackOrder(d: DateTime, c: DateTime, ce: IoError,
                      md1: Result<Times, IoError>, md2: Result<Times, IoError>,
                      again1: Result<Times, IoError>, again2: Result<Times, IoError>,
                      m1: Result<DateTime, IoError>, m2: Result<DateTime, IoError>)
    ensures ResolveDate(Some(d), md1, again1) == ResolveDate(Some(d), md2, again2) == Ok(d)
    ensures ResolveDate(None, Ok(Times(Ok(c), m1)), again1)
         == ResolveDate(None, Ok(Times(Ok(c), m2)), again2) == Ok(c)
    ensures ResolveDate(None, Ok(Times(Err(ce), m1)), again1)
         == ResolveDate(None, Ok(Times(Err(ce), m2)), again1)
  {
  }

  /** The date `process_file` sorts an entry by. */
  function DateOf(e: Entry, cfg: Config): Result<DateTime, Error> {
    ResolveDate(Exif.GetExif(e.io.exif, cfg.parse), e.io.metadata, e.io.metadataAgain)
  }

  /** `output.join(date.format(format_str))`. */
  function DestDir(cfg: Config, d: DateTime): Path {
    Join(cfg.output, cfg.render(d))
  }

  /** `process_file` against the existing paths `fs`.  A placed file lands in
      the directory for its date, at a path that did not exist; a copy leaves
      every existing path in place, a move removes the source.  The
      `change_file_name` failure branch is never taken. */
  function ProcessFile(e: Entry, cfg: Config, fs: set<Path>): (s: Step)
    ensures s.outcome.Ok? ==> s.outcome.value !in fs && s.outcome.value in s.fs
    ensures s.outcome.Ok? ==>
      && DateOf(e, cfg).Ok?
      && FileName(s.outcome.value).Some?
      && Dir(s.outcome.value) == DestDir(cfg, DateOf(e, cfg).value)
    ensures s.outcome != Err(CollisionUnresolved)
    ensures !cfg.moveFiles ==> fs <= s.fs
    ensures cfg.moveFiles && s.outcome.Ok? && e.path in fs ==> e.path !in s.fs
    ensures s.outcome.Err? && !s.outcome.error.TransferFailed? ==> s.fs == fs
    ensures s.outcome.Ok? ==>
      e.io.open.Done? && ToStr(e.fileName).Some? && e.io.createDir.Done? && e.io.transfer.Done?
    ensures fs - {e.path} <= s.fs
  {
    if e.io.open.Failed? then Step(Err(OpenFailed(e.io.open.error)), fs)
    else match DateOf(e, cfg)
      case Err(err) => Step(Err(err), fs)
      case Ok(date) =>
        var dir := DestDir(cfg, date);
        match ToStr(e.fileName)
        case None => Step(Err(NameNotText), fs)
        case Some(name) =>
          var target := JoinName(dir, FromText(name));
          ToStrFromText(e.fileName, name);
          StemOfText(target);
          var dest := if target in fs then Collision.Resolve(target, fs) else Some(target);
          match dest
          case None => Step(Err(CollisionUnresolved), fs)
          case Some(d) =>
            if e.io.createDir.Failed? then Step(Err(CreateDirFailed(e.io.createDir.error)), fs)
            else
              FileNotAmongItsDirs(d);
              var withDirs := fs + DirsOf(dir);
              if e.io.transfer.Failed? then Step(Err(TransferFailed(e.io.transfer.error)), withDirs)
              else if cfg.moveFiles then Step(Ok(d), (withDirs - {e.path}) + {d})
              else Step(Ok(d), withDirs + {d})
  }

  /** Every step before the final I/O succeeds. */
  predicate ReadyToPlace(e: Entry, cfg: Config) {
    && e.io.open.Done?
    && DateOf(e, cfg).Ok?
    && ToStr(e.fileName).Some?
    && e.io.createDir.Done?
    && e.io.transfer.Done?
  }

  /** With nothing at `output/date/name`, the file goes exactly there under
      its own name. */
  lemma DestinationWithoutCollision(e: Entry, cfg: Config, fs: set<Path>)
    requires ReadyToPlace(e, cfg)
    requires JoinName(DestDir(cfg, DateOf(e, cfg).value), e.fileName) !in fs
    ensures ProcessFile(e, cfg, fs).outcome == Ok(JoinName(DestDir(cfg, DateOf(e, cfg).value), e.fileName))
  {
    ToStrFromText(e.fileName, ToStr(e.fileName).value);
  }

  /** With `output/date/name` taken, the file goes to `stem (k).ext` in the
      same directory for the smallest counter `k >= 1` that is free. */
  lemma CollisionTakesSmallestFreeCounter(e: Entry, cfg: Config, fs: set<Path>)
    requires ReadyToPlace(e, cfg)
    requires JoinName(DestDir(cfg, DateOf(e, cfg).value), e.fileName) in fs
    ensures Collision.Resolvable(JoinName(DestDir(cfg, DateOf(e, cfg).value), e.fileName))
    ensures
      var target := JoinName(DestDir(cfg, DateOf(e, cfg).value), e.fileName);
      exists k :: k >= 1 && ProcessFile(e, cfg, fs).outcome == Ok(Collision.Candidate(target, k)) &&
        Collision.Candidate(target, k) !in fs &&
        forall j :: 1 <= j < k ==> Collision.Candidate(target, j) in fs
  {
    var target := JoinName(DestDir(cfg, DateOf(e, cfg).value), e.fileName);
    ToStrFromText(e.fileName, ToStr(e.fileName).value);
    StemOfText(target);
    var r := Collision.Resolve(target, fs);
    assert ProcessFile(e, cfg, fs).outcome == Ok(r.value);
  }

  /** A file name that is not valid UTF-8 fails the file once its date is
      known, before anything is written. */
  lemma NonTextNameFails(e: Entry, cfg: Config, fs: set<Path>)
    requires e.io.open.Done? && DateOf(e, cfg).Ok?
    requires ToStr(e.fileName).None?
    ensures ProcessFile(e, cfg, fs) == Step(Err(NameNotText), fs)
  {
  }
}

=== FILE: wrappers.dfy ===
/** Failure-carrying values shared by every module of the model. */
module Wrappers {

  /** Rust's `Option<T>`. */
  datatype Option<+T> = None | Some(value: T)

  /** Rust's `Result<T, E>`. */
  datatype Result<+T, +E> = Ok(value: T) | Err(error: E)

  /** The result of an I/O call that yields no value (`io::Result<()>`). */
  datatype Outcome<+E> = Done | Failed(error: E)
}
